=== FILE: README.md ===
# Password strength checker — Dafny model

This project models the logic of a browser-side password strength indicator.
On every keystroke the page runs two steps:

- `checkStrength` analyses the password. It produces four character-class flags,
  a repeated-run flag, a weak-sequence flag and a blacklist flag. It also produces
  the assumed charset size behind its entropy estimate and an ordered list of
  suggestions.
- `updateUI` turns that record into a score from 0 to 5 and a bucket index
  clamped to 0..3. The index then selects the bar width, the label text and the
  bar's style class.

The model is functional. Passwords are sequences of UTF-16 code units
(`CodeUnits.JsString`), because that is what JavaScript's `.length` counts. It is
also what regular expressions without the `u` flag match.

Modules:

- `CodeUnits` (`code_units.dfy`): the code-unit type, the ASCII classes
  `[A-Z]`, `[a-z]`, `\d` and `[^A-Za-z0-9]`, the line terminators that `.` refuses,
  and ASCII lowering.
- `Analyzer` (`analyzer.dfy`): `checkStrength`. The class, repeat and sequence
  flags are recursive left-to-right scans, each proved equal to an existential
  specification. The blacklist flag is a membership test of the whole lowered
  password. The suggestion list is built by the source's eight conditional
  pushes and is proved equal to a reading of the rule table.
- `JsArrays` (`js_arrays.dfy`): out-of-range array reads give `undefined`, and
  `a || b` falls back on a falsy `a`.
- `Presenter` (`presenter.dfy`): the score, the bucket index, the width, label
  and class lookups, and the resulting page state.
- `Scenarios` (`scenarios.dfy`): worked inputs, each pinned to the fields it
  illustrates. Four of them are pinned to the whole record and page state.

## Model

| member | source | states |
|---|---|---|
| `CodeUnits.LowerUnit` | script.js:45 | lowering turns each of A-Z into the same letter of a-z, keeps every other code unit, and never leaves an upper-case letter |
| `CodeUnits.ToLower` | script.js:45 | lowering keeps the length, lowers each unit in place, and leaves no upper-case letter |
| `CodeUnits.ToLowerIdempotent` | script.js:45 | lowering an already lowered password changes nothing |
| `Analyzer.ContainsClass` | script.js:38-41 | the class test is true exactly when some code unit of the password is in the class |
| `Analyzer.ClassesPartition` | script.js:38-41 | every code unit is in exactly one of upper, lower, digit, symbol; symbol is everything outside A-Z, a-z, 0-9 |
| `Analyzer.SomeClassIffNonEmpty` | script.js:38-41 | at least one class flag is set exactly when the password is non-empty |
| `Analyzer.HasRepeat` | script.js:42 | `/(.)\1{2,}/` matches exactly when some index starts three equal code units that are not a line terminator |
| `Analyzer.Occurs` | script.js:43 | the position-by-position search finds a pattern exactly when it occurs as a contiguous slice |
| `Analyzer.MatchesAny` | script.js:43 | an alternation matches exactly when one of its alternatives occurs |
| `Analyzer.HasSequence` | script.js:43 | the sequence flag is set exactly when the ASCII-lowered password contains "abc", "123", "qwe", "xyz" or "password" |
| `Analyzer.SequenceSurvivesExtension` | script.js:43 | text added before or after a weak sequence never clears the flag |
| `Analyzer.AbsentUnitNeverOccurs` | script.js:43 | a pattern holding a unit the text lacks never occurs in it |
| `Analyzer.IsBlacklisted` | script.js:44-46 | the blacklist flag is an exact match of the whole lowered password against one of the four entries, so a blacklisted password is 6 to 8 units long |
| `Analyzer.BlacklistedImpliesSequenceUnlessLetmein` | script.js:43-46 | for a blacklisted password the sequence flag is set exactly when it is not "letmein" in some letter case |
| `Analyzer.NoAsciiNoFoldedFlag` | script.js:43-46 | a password without ASCII units is neither sequential nor blacklisted, whatever its length |
| `Analyzer.CharsetSize` | script.js:50-54 | the charset sum lies in 0..82, is 82 exactly when all four classes are present, and is 0 exactly when none is |
| `Analyzer.CharsetContributions` | script.js:50-54 | upper case adds 26, lower case 26, digits 10 and symbols 20 to the charset, whatever the other classes are |
| `Analyzer.Push` | script.js:61-69 | a conditional push appends the message when its condition holds and leaves the list alone otherwise |
| `Analyzer.RuleList` | script.js:60-69 | the eight pushes yield at most eight messages |
| `Analyzer.PushRule` | script.js:61-69 | one conditional push keeps the list in rule order and holds rule n's message exactly when rule n fires |
| `Analyzer.SelectedInOrder` | script.js:61-69 | the table reading of the rules lists each firing rule's message once, in rule order |
| `Analyzer.SelectedStep` | script.js:61-69 | each step of the table reading pushes the message of that rule exactly when it fires |
| `Analyzer.SelectedFirstHalf` | script.js:61-65 | the table reading of the first four rules equals the first four pushes of the source |
| `Analyzer.SelectedSecondHalf` | script.js:66-69 | the table reading of the last four rules equals the last four pushes of the source, from whatever the first four produced |
| `Analyzer.RuleListIsSelected` | script.js:60-69 | the eight pushes in the source build the same list as the table reading |
| `Analyzer.Suggestions` | script.js:60-71 | the list has 1 to 8 entries; each rule message is present exactly when its rule fires; messages appear in rule order, each at most once; the list holds only rule messages unless it is the success message alone; the success message appears only alone, and exactly when no rule fires |
| `Analyzer.StrongExactlyWhenAllRulesPass` | script.js:60-70 | the suggestions are exactly the success message when the length is at least 12, all four classes are present and no repeat, sequence or blacklist flag is set, and only then |
| `Analyzer.CheckStrength` | script.js:35-74 | the analyser is total; length is the code-unit count; each flag holds exactly when its existential or substring condition holds; the charset is the sum of the contributions of the present classes, in 0..82, 0 exactly for the empty password and 82 exactly with all four classes |
| `Analyzer.CaseInsensitiveFlags` | script.js:43-46 | passwords that differ only in ASCII letter case agree on the sequence and blacklist flags |
| `Analyzer.LoweringKeepsFoldedFlags` | script.js:43-46 | lowering the password before the analysis changes neither the sequence nor the blacklist flag |
| `JsArrays.At` | script.js:96 | an array read is `undefined` exactly when the index is out of range, and otherwise the element at that index |
| `JsArrays.OrNumber` | script.js:96 | `a || b` on numbers is `a` when `a` is defined and non-zero, and `b` when `a` is `undefined` or 0 |
| `JsArrays.OrString` | script.js:101 | `a || b` on strings is `a` when `a` is defined and non-empty, and `b` when `a` is `undefined` or "" |
| `Presenter.Score` | script.js:77-82 | the score is at most 5 |
| `Presenter.CountTrue` | script.js:77-82 | a count of true conditions never exceeds the number of conditions |
| `Presenter.ScoreCountsConditions` | script.js:77-82 | the score is the number of true conditions among length >= 8, upper, digit, symbol, and no repeat, sequence or blacklist hit |
| `Presenter.ScoreIgnoresLower` | script.js:77-82 | changing the lower-case flag changes neither the conditions nor the score |
| `Presenter.CountTrueMonotone` | script.js:77-82 | a pointwise stronger list of conditions counts at least as many, and strictly more when it gains one |
| `Presenter.ScoreMonotone` | script.js:77-82 | satisfying every condition another record satisfies never lowers the score, and satisfying one more raises it |
| `Presenter.Max` | script.js:86 | `Math.max` is one of its arguments and at least both |
| `Presenter.Min` | script.js:86 | `Math.min` is one of its arguments and at most both |
| `Presenter.BucketIndex` | script.js:86 | the index is in 0..3; scores 0 and 1 give 0, scores 4 and 5 give 3, and scores in between give score - 1 |
| `Presenter.BucketMonotone` | script.js:86 | a higher score never gives a lower index |
| `Presenter.BarWidth` | script.js:96 | for an index in 0..3 the width is the table entry, so the fallback width 8 applies only outside that range |
| `Presenter.Label` | script.js:101 | for an index in 0..3 the label is the table entry, so the fallback to the first label applies only outside that range |
| `Presenter.BarClass` | script.js:90-94 | the class chain selects "very-weak", "weak", "good", "strong" for indexes 0, 1, 2, 3, "very-weak" for any index below 0 and "strong" for any index above 3 |
| `Presenter.Present` | script.js:76-101 | the page state has an index in 0..3 computed from the score, and the width, label and class of that index; the suggestions are passed through unchanged |
| `Presenter.WidthMonotone` | script.js:85-97 | a higher score never gives a narrower bar |
| `Presenter.ExcellentIsStrong` | script.js:61-94 | a password given the success message scores 5 and shows the full "strong" bar |
| `Scenarios.EmptyPassword` | script.js:35-101 | the empty password has no flags and charset 0, gets the five length and class suggestions, scores 1 and lands in bucket 0 |
| `Scenarios.NothingPresentSuggestions` | script.js:60-82 | the all-false, length-0 record gets the five length and class suggestions and scores 1 |
| `Scenarios.PasswordHasNoRepeat` | script.js:42 | "password" has no run of three, although it has two equal neighbours |
| `Scenarios.PasswordFlags` | script.js:43-46 | "password" is already lower case, is a blacklist entry and contains a weak pattern |
| `Scenarios.PasswordClasses` | script.js:38-41 | "password" has lower-case letters and no other class |
| `Scenarios.PasswordSignals` | script.js:37-47 | the flags of "password": length 8, lower case only, sequential and blacklisted, no repeat |
| `Scenarios.PasswordIsBlacklistedAndSequential` | script.js:35-101 | "password" is sequential and blacklisted, has charset 26, gets six suggestions in rule order, scores 1 and lands in the "very-weak" bucket with width 20 and label "Weak" |
| `Scenarios.LowerOnlyBlacklistedAndSequential` | script.js:60-86 | the suggestions, score and bucket of the flags "password" produces |
| `Scenarios.LetmeinIsOnlyBlacklisted` | script.js:43-46 | "LetMeIn" is blacklisted but not sequential |
| `Scenarios.MixedTwelveHasNoRepeat` | script.js:42 | "Aa1!Aa1!Aa1!" has no run of three |
| `Scenarios.MixedTwelveLowered` | script.js:45 | ASCII lowering of "Aa1!Aa1!Aa1!" gives three copies of "aa1!" |
| `Scenarios.NoPatternInLoweredMix` | script.js:43 | none of the weak patterns occurs in three copies of "aa1!" |
| `Scenarios.MixedTwelveHasNoSequence` | script.js:43 | "Aa1!Aa1!Aa1!" contains none of the weak patterns, in any letter case |
| `Scenarios.MixedTwelveSignals` | script.js:37-47 | "Aa1!Aa1!Aa1!" has all four class flags and none of the repeat, sequence and blacklist flags |
| `Scenarios.AllPassSuggestions` | script.js:60-82 | a twelve-unit record with every class and no repeat, sequence or blacklist flag gets only the success message and scores 5 |
| `Scenarios.MixedTwelveIsExcellent` | script.js:35-101 | "Aa1!Aa1!Aa1!" has all four classes, charset 82, only the success message, and the full bar |
| `Scenarios.FourEqualLettersRepeat` | script.js:42-67 | "aaaa" sets the repeat flag and gets the repeat suggestion |
| `Scenarios.LineFeedsDoNotRepeat` | script.js:42 | three line feeds are no repeat, because `.` does not match a line terminator |
| `Scenarios.ThreeEmojiClasses` | script.js:38-41 | surrogate code units set the symbol flag and no other class flag |
| `Scenarios.SymbolOnlySuggestions` | script.js:60-82 | a six-unit record with only the symbol flag gets the length and three class suggestions and scores 2 |
| `Scenarios.ThreeEmojiHaveNoRepeat` | script.js:42 | six alternating surrogate code units have no run of three |
| `Scenarios.ThreeEmojiHaveNoFoldedFlag` | script.js:43-46 | three copies of U+1F600 are neither sequential nor blacklisted |
| `Scenarios.ThreeEmojiSignals` | script.js:37-47 | three copies of one emoji have length 6, the symbol flag and no other flag |
| `Scenarios.AstralCharactersDoNotRepeat` | script.js:35-101 | three copies of one emoji are six alternating surrogate code units: a symbol, length 6, no repeat, charset 20, four suggestions, score 2 and the "weak" bucket with width 45 and label "Fair" |

## JavaScript string semantics

- Length is the number of UTF-16 code units, as `.length` counts it. A
  character outside the Basic Multilingual Plane counts as two. The repeat test also works on code units, so three
  identical emoji are not a repeat (`Scenarios.AstralCharactersDoNotRepeat`).
- A run of three equal line terminators is not a repeat, because the
  regular-expression `.` does not match them (`Scenarios.LineFeedsDoNotRepeat`).

## Left out

- The entropy number `Math.round(Math.log2(Math.pow(charset || 1, len)) || 0)`
  (script.js:55-57) is floating point. `Math.pow` overflows to Infinity for long
  passwords, and `log2` and `round` are not exactly modellable. The result record
  carries the integer charset sum in its place.
- Lowercasing is ASCII only: A-Z become a-z. Nothing here proves this equal to
  JavaScript's full `toLowerCase` and `i` flag; it is an assumption, argued as
  follows. Without the `u` flag, case-insensitive matching never folds a non-ASCII
  unit onto an ASCII one, so the sequence test folds only A-Z. For the blacklist,
  the only non-ASCII characters whose lower case contains ASCII are U+212A KELVIN
  SIGN (to "k") and U+0130 (to "i" plus a combining dot). No blacklist entry
  contains "k", and the combining dot is not ASCII, so the verdict is the same.
- DOM code is not modelled. This covers the element lookups and ARIA setup, the
  visibility toggle and the input listener, and the class, style, attribute and
  text writes (script.js:2-33, 89-101). These are side effects with no logic
  beyond the index-to-class choice and the width and label lookups, modelled
  by `Presenter.BarClass`, `Presenter.BarWidth` and `Presenter.Label`.
- The "Entropy: N bits" and "Len: N" display strings and the `<li>` rendering of
  the suggestions (script.js:102-105) are text formatting, and are not modelled.
- The emoji suffixes of the labels (script.js:84) are cosmetic and are dropped.
- Running the analyser twice on the same input gives the same result because
  both steps are pure functions. No separate statement is made about that.

=== FILE: analyzer.dfy ===
/**
 * The analyser `checkStrength`: it maps a password to character-class flags,
 * a repeated-run flag, a weak-sequence flag, a blacklist flag, the assumed
 * charset size and an ordered list of suggestions.
 */
module Analyzer {
  import opened CodeUnits

  // ---------------------------------------------------------------------------
  // Character classes: `/[A-Z]/.test`, `/[a-z]/.test`, `/\d/.test`, `/[^A-Za-z0-9]/.test`
  // ---------------------------------------------------------------------------

  datatype CharClass = Upper | Lower | Digit | Symbol

  predicate InClass(u: CodeUnit, k: CharClass) {
    match k
    case Upper => IsUpper(u)
    case Lower => IsLower(u)
    case Digit => IsDigit(u)
    case Symbol => IsSymbol(u)
  }

  /** Every code unit belongs to exactly one of the four classes. */
  lemma ClassesPartition(u: CodeUnit)
    ensures InClass(u, Upper) || InClass(u, Lower) || InClass(u, Digit) || InClass(u, Symbol)
    ensures forall k, k' :: InClass(u, k) && InClass(u, k') ==> k == k'
  {
  }

  /** A left-to-right scan for a code unit of class `k`, as a character-class
      regular expression without anchors performs it. */
  function ContainsClass(s: JsString, k: CharClass): (b: bool)
    ensures b <==> exists i :: 0 <= i < |s| && InClass(s[i], k)
  {
    |s| > 0 && (InClass(s[0], k) || ContainsClass(s[1..], k))
  }

  // ---------------------------------------------------------------------------
  // Repeats: `/(.)\1{2,}/.test`
  // ---------------------------------------------------------------------------

  /** Position `i` starts three equal code units that `.` can match. */
  predicate RunAt(s: JsString, i: int)
    requires 0 <= i && i + 2 < |s|
  {
    !IsLineTerminator(s[i]) && s[i + 1] == s[i] && s[i + 2] == s[i]
  }

  /** The regular expression tries each start position in turn: `(.)` takes one
      code unit other than a line terminator, and `\1{2,}` needs at least two
      more copies of it right after. */
  function HasRepeat(s: JsString): (b: bool)
    ensures b <==> exists i :: 0 <= i && i + 2 < |s| && RunAt(s, i)
  {
    if |s| < 3 then false
    else if RunAt(s, 0) then true
    else
      RunShift(s);
      HasRepeat(s[1..])
  }

  /** Past a start position without a run, the runs are those of the tail. */
  lemma RunShift(s: JsString)
    requires |s| >= 3 && !RunAt(s, 0)
    ensures (exists i :: 0 <= i && i + 2 < |s| && RunAt(s, i))
        <==> (exists i :: 0 <= i && i + 2 < |s[1..]| && RunAt(s[1..], i))
  {
    if exists i :: 0 <= i && i + 2 < |s| && RunAt(s, i) {
      var i :| 0 <= i && i + 2 < |s| && RunAt(s, i);
      assert RunAt(s[1..], i - 1);
    }
    if exists i :: 0 <= i && i + 2 < |s[1..]| && RunAt(s[1..], i) {
      var i :| 0 <= i && i + 2 < |s[1..]| && RunAt(s[1..], i);
      assert RunAt(s, i + 1);
    }
  }

  // ---------------------------------------------------------------------------
  // Sequences: `/(abc|123|qwe|xyz|password)/i.test`
  // ---------------------------------------------------------------------------

  /** `p` occurs in `t` starting at index `i`. */
  predicate OccursAt(p: JsString, t: JsString, i: int) {
    0 <= i && i + |p| <= |t| && t[i..i + |p|] == p
  }

  /** Substring search, one start position after another. */
  function Occurs(p: JsString, t: JsString): (b: bool)
    ensures b <==> exists i :: OccursAt(p, t, i)
    decreases |t|
  {
    if |t| < |p| then false
    else if t[..|p|] == p then
      assert OccursAt(p, t, 0);
      true
    else
      OccursShift(p, t);
      Occurs(p, t[1..])
  }

  /** Past a start position where `p` does not occur, the occurrences are
      those in the tail. */
  lemma OccursShift(p: JsString, t: JsString)
    requires |t| > 0 && !OccursAt(p, t, 0)
    ensures (exists i :: OccursAt(p, t, i)) <==> (exists i :: OccursAt(p, t[1..], i))
  {
    if exists i :: OccursAt(p, t, i) {
      var i :| OccursAt(p, t, i);
      assert t[1..][i - 1..i - 1 + |p|] == t[i..i + |p|];
      assert OccursAt(p, t[1..], i - 1);
    }
    if exists i :: OccursAt(p, t[1..], i) {
      var i :| OccursAt(p, t[1..], i);
      assert t[1..][i..i + |p|] == t[i + 1..i + 1 + |p|];
      assert OccursAt(p, t, i + 1);
    }
  }

  /** One of the alternatives `ps` occurs in `t`. */
  function MatchesAny(ps: seq<JsString>, t: JsString): (b: bool)
    ensures b <==> exists k :: 0 <= k < |ps| && Occurs(ps[k], t)
  {
    |ps| > 0 && (Occurs(ps[0], t) || MatchesAny(ps[1..], t))
  }

  /** The alternatives of the weak-sequence expression, all lower case. */
  const WeakPatterns: seq<JsString> :=
    [Units("abc"), Units("123"), Units("qwe"), Units("xyz"), Units("password")]

  /** Without the `u` flag, the `i` flag never folds a non-ASCII unit onto an
      ASCII one (see README), so matching the ASCII-lowered password against
      the lower-case ASCII alternatives is the same test. */
  function HasSequence(s: JsString): (b: bool)
    ensures b <==> exists k, i :: 0 <= k < |WeakPatterns| && OccursAt(WeakPatterns[k], ToLower(s), i)
  {
    MatchesAny(WeakPatterns, ToLower(s))
  }

  /** A weak sequence stays weak whatever is written around it. */
  lemma {:induction false} SequenceSurvivesExtension(a: JsString, s: JsString, b: JsString)
    requires HasSequence(s)
    ensures HasSequence(a + s + b)
  {
    var k, i :| 0 <= k < |WeakPatterns| && OccursAt(WeakPatterns[k], ToLower(s), i);
    var p := WeakPatterns[k];
    ToLowerConcat(a, s);
    ToLowerConcat(a + s, b);
    var t := ToLower(a + s + b);
    assert t == ToLower(a) + ToLower(s) + ToLower(b);
    assert t[|a| + i..|a| + i + |p|] == ToLower(s)[i..i + |p|];
    assert OccursAt(p, t, |a| + i);
  }

  // ---------------------------------------------------------------------------
  // Blacklist: `["password", "123456", "qwerty", "letmein"].includes(pwd.toLowerCase())`
  // ---------------------------------------------------------------------------

  const Blacklist: seq<JsString> :=
    [Units("password"), Units("123456"), Units("qwerty"), Units("letmein")]

  /** The whole lowered password equals one blacklist entry; `includes`
      compares strings by content. */
  function IsBlacklisted(s: JsString): (b: bool)
    ensures b <==> exists k :: 0 <= k < |Blacklist| && ToLower(s) == Blacklist[k]
    ensures b ==> 6 <= |s| <= 8
  {
    ToLower(s) in Blacklist
  }

  /** A pattern with a unit that does not appear in `t` does not occur in `t`. */
  lemma AbsentUnitNeverOccurs(p: JsString, t: JsString, j: nat)
    requires j < |p| && p[j] !in t
    ensures !Occurs(p, t)
  {
    forall i | 0 <= i && i + |p| <= |t|
      ensures !OccursAt(p, t, i)
    {
      assert t[i..i + |p|][j] == t[i + j];
    }
  }

  /** A blacklisted password also trips the sequence flag, except "letmein"
      in any letter case, which contains none of the weak patterns. */
  lemma BlacklistedImpliesSequenceUnlessLetmein(s: JsString)
    requires IsBlacklisted(s)
    ensures HasSequence(s) <==> ToLower(s) != Units("letmein")
  {
    var t := ToLower(s);
    if t == Units("letmein") {
      forall k | 0 <= k < |WeakPatterns|
        ensures !Occurs(WeakPatterns[k], t)
      {
        AbsentUnitNeverOccurs(WeakPatterns[k], t, 0);
      }
    } else if t == Units("password") {
      assert OccursAt(WeakPatterns[4], t, 0);
    } else if t == Units("123456") {
      assert OccursAt(WeakPatterns[1], t, 0);
    } else {
      assert t == Units("qwerty");
      assert OccursAt(WeakPatterns[2], t, 0);
    }
  }

  /** Every weak pattern and every blacklist entry is ASCII, so a password
      without ASCII units trips neither flag. */
  lemma NoAsciiNoFoldedFlag(s: JsString)
    requires forall i :: 0 <= i < |s| ==> s[i] >= 128
    ensures !HasSequence(s)
    ensures !IsBlacklisted(s)
  {
    var t := ToLower(s);
    assert forall i :: 0 <= i < |t| ==> t[i] >= 128;
    forall k | 0 <= k < |WeakPatterns|
      ensures !Occurs(WeakPatterns[k], t)
    {
      AbsentUnitNeverOccurs(WeakPatterns[k], t, 0);
    }
    forall k | 0 <= k < |Blacklist|
      ensures t != Blacklist[k]
    {
      assert |Blacklist[k]| > 0 && Blacklist[k][0] < 128;
    }
  }

  // ---------------------------------------------------------------------------
  // Charset size
  // ---------------------------------------------------------------------------

  /** The assumed alphabet size: 26 per letter case, 10 digits, 20 symbols,
      added up over the classes present. */
  function CharsetSize(upper: bool, lower: bool, digit: bool, symbol: bool): (n: nat)
    ensures n <= 82
    ensures n == 82 <==> upper && lower && digit && symbol
    ensures n == 0 <==> !upper && !lower && !digit && !symbol
  {
    var c0 := 0;
    var c1 := if lower then c0 + 26 else c0;
    var c2 := if upper then c1 + 26 else c1;
    var c3 := if digit then c2 + 10 else c2;
    if symbol then c3 + 20 else c3
  }

  /** What each class adds to the charset: switching one class on, with the
      others unchanged, raises the size by exactly 26, 26, 10 or 20. */
  lemma CharsetContributions(upper: bool, lower: bool, digit: bool, symbol: bool)
    ensures CharsetSize(true, lower, digit, symbol) == CharsetSize(false, lower, digit, symbol) + 26
    ensures CharsetSize(upper, true, digit, symbol) == CharsetSize(upper, false, digit, symbol) + 26
    ensures CharsetSize(upper, lower, true, symbol) == CharsetSize(upper, lower, false, symbol) + 10
    ensures CharsetSize(upper, lower, digit, true) == CharsetSize(upper, lower, digit, false) + 20
  {
  }

  // ---------------------------------------------------------------------------
  // The result record and the suggestions
  // ---------------------------------------------------------------------------

  /** The flags of the result object, before the suggestions are attached. */
  datatype Signals = Signals(
    length: nat,
    upper: bool,
    lower: bool,
    digit: bool,
    symbol: bool,
    repeats: bool,
    sequences: bool,
    blacklist: bool)

  /** What `checkStrength` returns; `charset` stands where the source keeps
      the floating-point entropy estimate computed from it. */
  datatype StrengthResult = StrengthResult(signals: Signals, charset: nat, suggestions: seq<string>)

  const MsgLonger := "Make it longer (12+ characters recommended)."
  const MsgUpper := "Add uppercase letters."
  const MsgLower := "Add lowercase letters."
  const MsgDigit := "Add digits."
  const MsgSymbol := "Add symbols (e.g. !@#$%)."
  const MsgRepeats := "Avoid repeated characters (aaaa or 1111)."
  const MsgSequences := "Avoid simple sequences (abcd, 1234)."
  const MsgBlacklist := "Avoid common passwords."
  const MsgStrong := "Excellent! Your password is strong."

  /** The rule messages in the order the rules are evaluated. */
  const RuleMessages: seq<string> :=
    [MsgLonger, MsgUpper, MsgLower, MsgDigit, MsgSymbol, MsgRepeats, MsgSequences, MsgBlacklist]

  /** Whether rule `k` (numbered as in `RuleMessages`) asks for its message. */
  predicate RuleFires(g: Signals, k: int) {
    match k
    case 0 => g.length < 12
    case 1 => !g.upper
    case 2 => !g.lower
    case 3 => !g.digit
    case 4 => !g.symbol
    case 5 => g.repeats
    case 6 => g.sequences
    case 7 => g.blacklist
    case _ => false
  }

  /** The position of a message among the rule messages; 8 for any other text. */
  function RuleRank(m: string): (r: nat)
    ensures r <= 8
    ensures r < 8 ==> RuleMessages[r] == m
    ensures r == 8 ==> m !in RuleMessages
  {
    if m == MsgLonger then 0
    else if m == MsgUpper then 1
    else if m == MsgLower then 2
    else if m == MsgDigit then 3
    else if m == MsgSymbol then 4
    else if m == MsgRepeats then 5
    else if m == MsgSequences then 6
    else if m == MsgBlacklist then 7
    else 8
  }

  /** `if (cond) s.push(m)` */
  function Push(s: seq<string>, cond: bool, m: string): (r: seq<string>)
    ensures |r| == if cond then |s| + 1 else |s|
    ensures s <= r
    ensures cond ==> r[|s|] == m
  {
    if cond then s + [m] else s
  }

  /** `s` lists exactly the messages of the rules below `n` that fire for `g`,
      in rule order. */
  predicate RulesPrefix(g: Signals, s: seq<string>, n: nat)
    requires n <= 8
  {
    && (forall i :: 0 <= i < |s| ==> RuleRank(s[i]) < n)
    && (forall i, j :: 0 <= i < j < |s| ==> RuleRank(s[i]) < RuleRank(s[j]))
    && (forall k :: 0 <= k < n ==> (RuleMessages[k] in s <==> RuleFires(g, k)))
    && |s| <= n
  }

  /** Evaluating rule `n` keeps the list in rule order and complete up to `n + 1`. */
  lemma PushRule(g: Signals, s: seq<string>, n: nat)
    requires n < 8 && RulesPrefix(g, s, n)
    ensures RulesPrefix(g, Push(s, RuleFires(g, n), RuleMessages[n]), n + 1)
  {
    var s' := Push(s, RuleFires(g, n), RuleMessages[n]);
    assert RuleRank(RuleMessages[n]) == n;
    forall k | 0 <= k < n + 1
      ensures RuleMessages[k] in s' <==> RuleFires(g, k)
    {
      assert RuleRank(RuleMessages[k]) == k;
    }
  }

  /** The eight rules of `checkStrength`, each pushing its message when it fires. */
  function RuleList(g: Signals): (r: seq<string>)
    ensures |r| <= |RuleMessages|
  {
    var s1 := Push([], g.length < 12, MsgLonger);
    var s2 := Push(s1, !g.upper, MsgUpper);
    var s3 := Push(s2, !g.lower, MsgLower);
    var s4 := Push(s3, !g.digit, MsgDigit);
    var s5 := Push(s4, !g.symbol, MsgSymbol);
    var s6 := Push(s5, g.repeats, MsgRepeats);
    var s7 := Push(s6, g.sequences, MsgSequences);
    Push(s7, g.blacklist, MsgBlacklist)
  }

  /** The same list read off the rule table: the messages of the rules below
      `n` that fire, in table order. */
  function Selected(g: Signals, n: nat): seq<string>
    requires n <= |RuleMessages|
  {
    if n == 0 then [] else Push(Selected(g, n - 1), RuleFires(g, n - 1), RuleMessages[n - 1])
  }

  lemma {:induction false} SelectedInOrder(g: Signals, n: nat)
    requires n <= |RuleMessages|
    ensures RulesPrefix(g, Selected(g, n), n)
  {
    if n > 0 {
      SelectedInOrder(g, n - 1);
      PushRule(g, Selected(g, n - 1), n - 1);
    }
  }

  /** The source's eight `if (...) s.push(...)` statements compute the table
      reading. */
  /** One step of the table reading, stated for a known prefix and for the
      rule and message the table holds at that step. */
  lemma SelectedStep(g: Signals, n: nat, s: seq<string>, c: bool, m: string)
    requires 1 <= n <= |RuleMessages| && Selected(g, n - 1) == s
    requires c == RuleFires(g, n - 1) && m == RuleMessages[n - 1]
    ensures Selected(g, n) == Push(s, c, m)
  {
  }

  /** The table reading of rules 0 to 3 is the first four pushes. */
  lemma SelectedFirstHalf(g: Signals)
    ensures Selected(g, 4) == Push(Push(Push(Push([],
      g.length < 12, MsgLonger), !g.upper, MsgUpper), !g.lower, MsgLower), !g.digit, MsgDigit)
  {
    var s1 := Push([], g.length < 12, MsgLonger);
    SelectedStep(g, 1, [], g.length < 12, MsgLonger);
    var s2 := Push(s1, !g.upper, MsgUpper);
    SelectedStep(g, 2, s1, !g.upper, MsgUpper);
    var s3 := Push(s2, !g.lower, MsgLower);
    SelectedStep(g, 3, s2, !g.lower, MsgLower);
    SelectedStep(g, 4, s3, !g.digit, MsgDigit);
  }

  /** The table reading of rules 4 to 7 is the last four pushes, from
      whatever the first four produced. */
  lemma SelectedSecondHalf(g: Signals, s4: seq<string>)
    requires Selected(g, 4) == s4
    ensures Selected(g, 8) == Push(Push(Push(Push(s4,
      !g.symbol, MsgSymbol), g.repeats, MsgRepeats), g.sequences, MsgSequences), g.blacklist, MsgBlacklist)
  {
    var s5 := Push(s4, !g.symbol, MsgSymbol);
    SelectedStep(g, 5, s4, !g.symbol, MsgSymbol);
    var s6 := Push(s5, g.repeats, MsgRepeats);
    SelectedStep(g, 6, s5, g.repeats, MsgRepeats);
    var s7 := Push(s6, g.sequences, MsgSequences);
    SelectedStep(g, 7, s6, g.sequences, MsgSequences);
    SelectedStep(g, 8, s7, g.blacklist, MsgBlacklist);
  }

  lemma RuleListIsSelected(g: Signals)
    ensures RuleList(g) == Selected(g, |RuleMessages|)
  {
    SelectedFirstHalf(g);
    SelectedSecondHalf(g, Selected(g, 4));
  }

  /** The suggestion list: the rule messages, or the success message alone
      when no rule fires. */
  function Suggestions(g: Signals): (s: seq<string>)
    ensures 1 <= |s| <= 8
    ensures forall k :: 0 <= k < |RuleMessages| ==> (RuleMessages[k] in s <==> RuleFires(g, k))
    ensures forall i, j :: 0 <= i < j < |s| ==> RuleRank(s[i]) < RuleRank(s[j])
    ensures s != [MsgStrong] ==> forall i :: 0 <= i < |s| ==> RuleRank(s[i]) < |RuleMessages|
    ensures MsgStrong in s <==> s == [MsgStrong]
    ensures s == [MsgStrong] <==> forall k :: 0 <= k < |RuleMessages| ==> !RuleFires(g, k)
  {
    var rules := RuleList(g);
    RuleListIsSelected(g);
    SelectedInOrder(g, |RuleMessages|);
    NoRuleMessageIsStrong(rules);
    if |rules| == 0 then [MsgStrong]
    else
      assert RuleMessages[RuleRank(rules[0])] in rules;
      rules
  }

  /** A list of rule messages never holds the success message. */
  lemma NoRuleMessageIsStrong(s: seq<string>)
    requires forall i :: 0 <= i < |s| ==> RuleRank(s[i]) < 8
    ensures MsgStrong !in s
  {
    assert RuleRank(MsgStrong) == 8;
  }

  /** The success message is given exactly for a password of at least 12
      units that has all four classes and no repeat, sequence or blacklist hit. */
  lemma StrongExactlyWhenAllRulesPass(g: Signals)
    ensures Suggestions(g) == [MsgStrong] <==>
      g.length >= 12 && g.upper && g.lower && g.digit && g.symbol
      && !g.repeats && !g.sequences && !g.blacklist
  {
    if Suggestions(g) == [MsgStrong] {
      assert !RuleFires(g, 0) && !RuleFires(g, 1) && !RuleFires(g, 2) && !RuleFires(g, 3);
      assert !RuleFires(g, 4) && !RuleFires(g, 5) && !RuleFires(g, 6) && !RuleFires(g, 7);
    }
  }

  // ---------------------------------------------------------------------------
  // checkStrength
  // ---------------------------------------------------------------------------

  /** A non-empty password has at least one class flag set; the empty one has none. */
  lemma SomeClassIffNonEmpty(s: JsString)
    ensures (ContainsClass(s, Upper) || ContainsClass(s, Lower) || ContainsClass(s, Digit)
             || ContainsClass(s, Symbol)) <==> |s| > 0
  {
    if |s| > 0 {
      ClassesPartition(s[0]);
    }
  }

  /** The analyser. Every input is accepted, the empty password included. */
  function CheckStrength(s: JsString): (r: StrengthResult)
    ensures r.signals.length == |s|
    ensures r.signals.upper <==> exists i :: 0 <= i < |s| && IsUpper(s[i])
    ensures r.signals.lower <==> exists i :: 0 <= i < |s| && IsLower(s[i])
    ensures r.signals.digit <==> exists i :: 0 <= i < |s| && IsDigit(s[i])
    ensures r.signals.symbol <==> exists i :: 0 <= i < |s| && IsSymbol(s[i])
    ensures r.signals.repeats <==> exists i :: 0 <= i && i + 2 < |s| && RunAt(s, i)
    ensures r.signals.sequences <==>
      exists k, i :: 0 <= k < |WeakPatterns| && OccursAt(WeakPatterns[k], ToLower(s), i)
    ensures r.signals.blacklist <==> exists k :: 0 <= k < |Blacklist| && ToLower(s) == Blacklist[k]
    ensures r.charset == CharsetSize(r.signals.upper, r.signals.lower, r.signals.digit, r.signals.symbol)
    ensures r.charset <= 82
    ensures r.charset == 0 <==> |s| == 0
    ensures r.charset == 82 <==> r.signals.upper && r.signals.lower && r.signals.digit && r.signals.symbol
    ensures r.suggestions == Suggestions(r.signals)
  {
    var g := Signals(
      |s|,
      ContainsClass(s, Upper),
      ContainsClass(s, Lower),
      ContainsClass(s, Digit),
      ContainsClass(s, Symbol),
      HasRepeat(s),
      HasSequence(s),
      IsBlacklisted(s));
    SomeClassIffNonEmpty(s);
    StrengthResult(g, CharsetSize(g.upper, g.lower, g.digit, g.symbol), Suggestions(g))
  }

  /** Lowering the password first changes neither the sequence nor the
      blacklist flag: both already look at the lowered text only. */
  lemma LoweringKeepsFoldedFlags(s: JsString)
    ensures HasSequence(ToLower(s)) == HasSequence(s)
    ensures IsBlacklisted(ToLower(s)) == IsBlacklisted(s)
  {
    ToLowerIdempotent(s);
  }

  /** Passwords that differ only in ASCII letter case agree on the sequence
      and blacklist flags. */
  lemma CaseInsensitiveFlags(s: JsString, t: JsString)
    requires ToLower(s) == ToLower(t)
    ensures CheckStrength(s).signals.sequences == CheckStrength(t).signals.sequences
    ensures CheckStrength(s).signals.blacklist == CheckStrength(t).signals.blacklist
    ensures |s| == |t|
  {
  }
}

=== FILE: code_units.dfy ===
/**
 * JavaScript strings as the password checker sees them: sequences of UTF-16
 * code units. `.length`, and regular expressions without the `u` flag, count
 * and match code units, so a character outside the Basic Multilingual Plane
 * is two elements here.
 */
module CodeUnits {

  /** One element of a JavaScript string. */
  type CodeUnit = u: int | 0 <= u < 0x1_0000

  type JsString = seq<CodeUnit>

  /** `[A-Z]` */
  predicate IsUpper(u: CodeUnit) {
    'A' as int <= u <= 'Z' as int
  }

  /** `[a-z]` */
  predicate IsLower(u: CodeUnit) {
    'a' as int <= u <= 'z' as int
  }

  /** `\d`, which is exactly `[0-9]` */
  predicate IsDigit(u: CodeUnit) {
    '0' as int <= u <= '9' as int
  }

  /** `[^A-Za-z0-9]` */
  predicate IsSymbol(u: CodeUnit) {
    !IsUpper(u) && !IsLower(u) && !IsDigit(u)
  }

  /** The code units the regular-expression `.` does not match:
      LF, CR, LINE SEPARATOR and PARAGRAPH SEPARATOR. */
  predicate IsLineTerminator(u: CodeUnit) {
    u == 0x0A || u == 0x0D || u == 0x2028 || u == 0x2029
  }

  /** ASCII case folding: A-Z become a-z, every other code unit is kept. */
  function LowerUnit(u: CodeUnit): (l: CodeUnit)
    ensures IsUpper(u) ==> IsLower(l) && l - 'a' as int == u - 'A' as int
    ensures !IsUpper(u) ==> l == u
    ensures !IsUpper(l)
  {
    if IsUpper(u) then u + ('a' as int - 'A' as int) else u
  }

  /** `toLowerCase`, restricted to ASCII letters. */
  function ToLower(s: JsString): (t: JsString)
    ensures |t| == |s|
    ensures forall i :: 0 <= i < |s| ==> t[i] == LowerUnit(s[i])
    ensures forall i :: 0 <= i < |t| ==> !IsUpper(t[i])
  {
    seq(|s|, i requires 0 <= i < |s| => LowerUnit(s[i]))
  }

  /** Lowering twice is lowering once. */
  lemma ToLowerIdempotent(s: JsString)
    ensures ToLower(ToLower(s)) == ToLower(s)
  {
  }

  /** Lowering commutes with concatenation. */
  lemma ToLowerConcat(a: JsString, b: JsString)
    ensures ToLower(a + b) == ToLower(a) + ToLower(b)
  {
    assert forall i :: 0 <= i < |a + b| ==> ToLower(a + b)[i] == (ToLower(a) + ToLower(b))[i];
  }

  /** Text whose every character fits in one UTF-16 code unit. */
  predicate IsBmpText(s: string) {
    forall i :: 0 <= i < |s| ==> s[i] as int < 0x1_0000
  }

  /** The code units of a Dafny string literal, for building constants. */
  function Units(s: string): (u: JsString)
    requires IsBmpText(s)
    ensures |u| == |s|
    ensures forall i :: 0 <= i < |s| ==> u[i] == s[i] as int
  {
    seq(|s|, i requires 0 <= i < |s| => s[i] as int)
  }
}

=== FILE: js_arrays.dfy ===
/**
 * The two pieces of JavaScript semantics the presenter leans on: indexing an
 * array out of range yields `undefined`, and `a || b` falls back to `b` when
 * `a` is falsy.
 */
module JsArrays {

  datatype Option<T> = Undefined | Defined(value: T)

  /** `xs[i]` */
  function At<T>(xs: seq<T>, i: int): (r: Option<T>)
    ensures r.Undefined? <==> i < 0 || |xs| <= i
    ensures 0 <= i < |xs| ==> r == Defined(xs[i])
  {
    if 0 <= i < |xs| then Defined(xs[i]) else Undefined
  }

  /** `a || b` for a number `a`: `undefined` and 0 are falsy. */
  function OrNumber(a: Option<int>, b: int): (r: int)
    ensures r == b || a == Defined(r)
    ensures a.Defined? && a.value != 0 ==> r == a.value
    ensures a == Undefined || a == Defined(0) ==> r == b
  {
    match a
    case Defined(n) => if n != 0 then n else b
    case Undefined => b
  }

  /** `a || b` for a string `a`: `undefined` and "" are falsy. */
  function OrString(a: Option<string>, b: string): (r: string)
    ensures r == b || a == Defined(r)
    ensures a.Defined? && a.value != "" ==> r == a.value
    ensures a == Undefined || a == Defined("") ==> r == b
  {
    match a
    case Defined(t) => if t != "" then t else b
    case Undefined => b
  }
}

=== FILE: presenter.dfy ===
/**
 * The computing half of `updateUI`: a score from the analyser's flags, a
 * bucket index clamped to 0..3, and the bar width, label and style class the
 * index selects.
 */
module Presenter {
  import opened Analyzer
  import opened JsArrays

  // ---------------------------------------------------------------------------
  // Score
  // ---------------------------------------------------------------------------

  /** The score: one point each for a length of at least 8, an upper-case
      letter, a digit, a symbol, and the absence of repeats, weak sequences and
      blacklist hits. The lower-case flag earns nothing. */
  function Score(g: Signals): (n: nat)
    ensures n <= 5
  {
    var n0 := 0;
    var n1 := if g.length >= 8 then n0 + 1 else n0;
    var n2 := if g.upper then n1 + 1 else n1;
    var n3 := if g.digit then n2 + 1 else n2;
    var n4 := if g.symbol then n3 + 1 else n3;
    if !g.repeats && !g.sequences && !g.blacklist then n4 + 1 else n4
  }

  /** The five scored conditions, in the order the source tests them. */
  function Conditions(g: Signals): (c: seq<bool>)
    ensures |c| == 5
  {
    [g.length >= 8, g.upper, g.digit, g.symbol, !g.repeats && !g.sequences && !g.blacklist]
  }

  /** The number of true entries of `c`. */
  function CountTrue(c: seq<bool>): (n: nat)
    ensures n <= |c|
  {
    if |c| == 0 then 0 else (if c[0] then 1 else 0) + CountTrue(c[1..])
  }

  /** The score counts exactly the conditions that hold. */
  lemma ScoreCountsConditions(g: Signals)
    ensures Score(g) == CountTrue(Conditions(g))
  {
    var c0 := Conditions(g);
    var c1 := c0[1..];
    var c2 := c1[1..];
    var c3 := c2[1..];
    var c4 := c3[1..];
    assert CountTrue(c4) == (if g.repeats || g.sequences || g.blacklist then 0 else 1);
    assert CountTrue(c3) == (if g.symbol then 1 else 0) + CountTrue(c4);
    assert CountTrue(c2) == (if g.digit then 1 else 0) + CountTrue(c3);
    assert CountTrue(c1) == (if g.upper then 1 else 0) + CountTrue(c2);
    assert CountTrue(c0) == (if g.length >= 8 then 1 else 0) + CountTrue(c1);
  }

  /** The lower-case flag has no influence on the score. */
  lemma ScoreIgnoresLower(g: Signals, lower: bool)
    ensures Score(g.(lower := lower)) == Score(g)
    ensures Conditions(g.(lower := lower)) == Conditions(g)
  {
  }

  /** `c` holds wherever `d` holds, position by position. */
  predicate Implies(d: seq<bool>, c: seq<bool>) {
    |d| == |c| && forall i :: 0 <= i < |d| && d[i] ==> c[i]
  }

  lemma {:induction false} CountTrueMonotone(d: seq<bool>, c: seq<bool>)
    requires Implies(d, c)
    ensures CountTrue(d) <= CountTrue(c)
    ensures (exists i :: 0 <= i < |d| && !d[i] && c[i]) ==> CountTrue(d) < CountTrue(c)
  {
    if |d| > 0 {
      assert Implies(d[1..], c[1..]);
      CountTrueMonotone(d[1..], c[1..]);
      if exists i :: 0 <= i < |d| && !d[i] && c[i] {
        var i :| 0 <= i < |d| && !d[i] && c[i];
        if i > 0 {
          assert !d[1..][i - 1] && c[1..][i - 1];
        }
      }
    }
  }

  /** Satisfying every condition `g` satisfies never lowers the score, and
      satisfying one more raises it. */
  lemma ScoreMonotone(g: Signals, h: Signals)
    requires Implies(Conditions(g), Conditions(h))
    ensures Score(g) <= Score(h)
    ensures (exists i :: 0 <= i < 5 && !Conditions(g)[i] && Conditions(h)[i]) ==> Score(g) < Score(h)
  {
    ScoreCountsConditions(g);
    ScoreCountsConditions(h);
    CountTrueMonotone(Conditions(g), Conditions(h));
  }

  // ---------------------------------------------------------------------------
  // Bucket index and the tables it selects from
  // ---------------------------------------------------------------------------

  /** `Math.max` on two integers */
  function Max(a: int, b: int): (m: int)
    ensures m >= a && m >= b
    ensures m == a || m == b
  {
    if a >= b then a else b
  }

  /** `Math.min` on two integers */
  function Min(a: int, b: int): (m: int)
    ensures m <= a && m <= b
    ensures m == a || m == b
  {
    if a <= b then a else b
  }

  /** `Math.max(0, Math.min(score - 1, 3))` */
  function BucketIndex(score: int): (idx: int)
    ensures 0 <= idx <= 3
    ensures score <= 1 ==> idx == 0
    ensures score >= 4 ==> idx == 3
    ensures 1 <= score <= 4 ==> idx == score - 1
  {
    Max(0, Min(score - 1, 3))
  }

  /** A higher score never lands in a lower bucket. */
  lemma BucketMonotone(a: int, b: int)
    requires a <= b
    ensures BucketIndex(a) <= BucketIndex(b)
  {
  }

  /** The labels without their emoji suffixes. */
  const Labels: seq<string> := ["Weak", "Fair", "Good", "Strong"]
  const Widths: seq<int> := [20, 45, 75, 100]
  const StyleClasses: seq<string> := ["very-weak", "weak", "good", "strong"]

  /** `widths[idx] || 8`: the fallback is taken only outside 0..3. */
  function BarWidth(idx: int): (w: int)
    ensures 0 <= idx < |Widths| ==> w == Widths[idx]
    ensures !(0 <= idx < |Widths|) ==> w == 8
    ensures 8 <= w <= 100
  {
    OrNumber(At(Widths, idx), 8)
  }

  /** `labels[idx] || labels[0]`: the fallback is taken only outside 0..3. */
  function Label(idx: int): (l: string)
    ensures 0 <= idx < |Labels| ==> l == Labels[idx]
    ensures !(0 <= idx < |Labels|) ==> l == Labels[0]
  {
    OrString(At(Labels, idx), Labels[0])
  }

  /** The class chain of `updateUI`: very-weak for 0 and below, strong for 3
      and above. */
  function BarClass(idx: int): (c: string)
    ensures 0 <= idx < |StyleClasses| ==> c == StyleClasses[idx]
    ensures idx <= 0 ==> c == "very-weak"
    ensures idx >= 3 ==> c == "strong"
    ensures c in StyleClasses
  {
    if idx <= 0 then "very-weak"
    else if idx == 1 then "weak"
    else if idx == 2 then "good"
    else "strong"
  }

  // ---------------------------------------------------------------------------
  // updateUI
  // ---------------------------------------------------------------------------

  /** The state `updateUI` writes into the page: bar class and width (which is
      also the `aria-valuenow` value), label, and the suggestions to list. */
  datatype UiState = UiState(
    idx: int,
    barClass: string,
    width: int,
    labelText: string,
    suggestions: seq<string>)

  function Present(r: StrengthResult): (u: UiState)
    ensures 0 <= u.idx <= 3
    ensures u.idx == BucketIndex(Score(r.signals))
    ensures u.width == Widths[u.idx] && u.labelText == Labels[u.idx] && u.barClass == StyleClasses[u.idx]
    ensures u.suggestions == r.suggestions
  {
    var idx := BucketIndex(Score(r.signals));
    UiState(idx, BarClass(idx), BarWidth(idx), Label(idx), r.suggestions)
  }

  /** The bar grows with the score. */
  lemma WidthMonotone(r: StrengthResult, r': StrengthResult)
    requires Score(r.signals) <= Score(r'.signals)
    ensures Present(r).width <= Present(r').width
  {
    BucketMonotone(Score(r.signals), Score(r'.signals));
  }

  /** A password the analyser calls excellent fills the bar. */
  lemma ExcellentIsStrong(s: CodeUnits.JsString)
    requires CheckStrength(s).suggestions == [MsgStrong]
    ensures Score(CheckStrength(s).signals) == 5
    ensures Present(CheckStrength(s)) == UiState(3, "strong", 100, "Strong", [MsgStrong])
  {
    StrongExactlyWhenAllRulesPass(CheckStrength(s).signals);
  }
}

=== FILE: scenarios.dfy ===
/**
 * Worked inputs for the analyser and the presenter. Each lemma pins the
 * fields its input illustrates; the empty password, "password",
 * "Aa1!Aa1!Aa1!" and three emoji are pinned to their whole record and page
 * state.
 */
module Scenarios {
  import opened CodeUnits
  import opened Analyzer
  import opened Presenter

  /** The whole record follows from the flags. */
  lemma RecordFromSignals(s: JsString, g: Signals)
    requires CheckStrength(s).signals == g
    ensures CheckStrength(s) == StrengthResult(g, CharsetSize(g.upper, g.lower, g.digit, g.symbol), Suggestions(g))
  {
  }

  /** The page state of a record whose score lands in bucket `idx`. */
  lemma PageInBucket(r: StrengthResult, idx: int)
    requires 0 <= idx < 4 && BucketIndex(Score(r.signals)) == idx
    ensures Present(r) == UiState(idx, StyleClasses[idx], Widths[idx], Labels[idx], r.suggestions)
  {
  }

  /** The empty password: no class, every "add" suggestion, the lowest bucket
      (its only point is for having no repeat, no weak sequence and no
      blacklist hit). */
  lemma EmptyPassword()
    ensures var r := CheckStrength([]);
      && r.signals == Signals(0, false, false, false, false, false, false, false)
      && r.charset == 0
      && r.suggestions == [MsgLonger, MsgUpper, MsgLower, MsgDigit, MsgSymbol]
      && Score(r.signals) == 1
      && Present(r) == UiState(0, "very-weak", 20, "Weak", r.suggestions)
  {
    var g := Signals(0, false, false, false, false, false, false, false);
    assert CheckStrength([]).signals == g;
    RecordFromSignals([], g);
    NothingPresentSuggestions();
    PageInBucket(CheckStrength([]), 0);
  }

  /** The suggestions and score of a record with no flag set. */
  lemma NothingPresentSuggestions()
    ensures var g := Signals(0, false, false, false, false, false, false, false);
      && Suggestions(g) == [MsgLonger, MsgUpper, MsgLower, MsgDigit, MsgSymbol]
      && Score(g) == 1
  {
    var g := Signals(0, false, false, false, false, false, false, false);
    assert RuleList(g) == [MsgLonger, MsgUpper, MsgLower, MsgDigit, MsgSymbol];
  }

  /** The password "password". */
  function Password(): (s: JsString)
    ensures |s| == 8
  {
    Units("password")
  }

  /** "password" never has the same unit two places apart, so no run. */
  lemma PasswordHasNoRepeat()
    ensures !HasRepeat(Password())
  {
    var s := Password();
    forall i | 0 <= i && i + 2 < |s|
      ensures !RunAt(s, i)
    {
      assert s[i + 2] != s[i];
    }
  }

  /** "password" is lower case already, is the first blacklist entry, and
      contains the weak pattern "password". */
  lemma PasswordFlags()
    ensures ToLower(Password()) == Password()
    ensures IsBlacklisted(Password())
    ensures HasSequence(Password())
  {
    var s := Password();
    assert forall i :: 0 <= i < |s| ==> IsLower(s[i]);
    assert ToLower(s) == s;
    assert Blacklist[0] == s;
    assert OccursAt(WeakPatterns[4], ToLower(s), 0);
  }

  /** The flags of "password": lower case only, sequential and blacklisted. */
  lemma PasswordSignals()
    ensures CheckStrength(Password()).signals
      == Signals(8, false, true, false, false, false, true, true)
  {
    var s := Password();
    PasswordClasses();
    PasswordFlags();
    PasswordHasNoRepeat();
    assert CheckStrength(s).signals == Signals(|s|,
      ContainsClass(s, Upper), ContainsClass(s, Lower), ContainsClass(s, Digit), ContainsClass(s, Symbol),
      HasRepeat(s), HasSequence(s), IsBlacklisted(s));
  }

  /** Every unit of "password" is a lower-case letter. */
  lemma PasswordClasses()
    ensures !ContainsClass(Password(), Upper)
    ensures ContainsClass(Password(), Lower)
    ensures !ContainsClass(Password(), Digit)
    ensures !ContainsClass(Password(), Symbol)
  {
    var s := Password();
    assert forall i :: 0 <= i < |s| ==> IsLower(s[i]);
    assert InClass(s[0], Lower);
  }

  /** "password" is both a weak sequence and a blacklist entry: charset 26,
      six suggestions in rule order, score 1 and the lowest bucket. */
  lemma PasswordIsBlacklistedAndSequential()
    ensures var r := CheckStrength(Password());
      && r.signals == Signals(8, false, true, false, false, false, true, true)
      && r.charset == 26
      && r.suggestions == [MsgLonger, MsgUpper, MsgDigit, MsgSymbol, MsgSequences, MsgBlacklist]
      && Score(r.signals) == 1
      && Present(r) == UiState(0, "very-weak", 20, "Weak", r.suggestions)
  {
    var g := Signals(8, false, true, false, false, false, true, true);
    PasswordSignals();
    RecordFromSignals(Password(), g);
    LowerOnlyBlacklistedAndSequential();
    PageInBucket(CheckStrength(Password()), 0);
  }

  /** The suggestions and score of a lower-case-only, 8-unit, blacklisted,
      sequential password without repeats. */
  lemma LowerOnlyBlacklistedAndSequential()
    ensures var g := Signals(8, false, true, false, false, false, true, true);
      && Suggestions(g) == [MsgLonger, MsgUpper, MsgDigit, MsgSymbol, MsgSequences, MsgBlacklist]
      && Score(g) == 1
      && BucketIndex(Score(g)) == 0
  {
    var g := Signals(8, false, true, false, false, false, true, true);
    assert RuleList(g) == [MsgLonger, MsgUpper, MsgDigit, MsgSymbol, MsgSequences, MsgBlacklist];
  }

  /** "LetMeIn" is blacklisted in any letter case, yet contains no weak sequence. */
  lemma LetmeinIsOnlyBlacklisted()
    ensures CheckStrength(Units("LetMeIn")).signals.blacklist
    ensures !CheckStrength(Units("LetMeIn")).signals.sequences
  {
    var s := Units("LetMeIn");
    assert ToLower(s) == Units("letmein");
    assert Blacklist[3] == ToLower(s);
    BlacklistedImpliesSequenceUnlessLetmein(s);
  }

  /** The password "Aa1!Aa1!Aa1!". */
  function MixedTwelve(): (s: JsString)
    ensures |s| == 12
  {
    Units("Aa1!Aa1!Aa1!")
  }

  /** "Aa1!Aa1!Aa1!" never has the same unit two places apart, so no run. */
  lemma MixedTwelveHasNoRepeat()
    ensures !HasRepeat(MixedTwelve())
  {
    var s := MixedTwelve();
    forall i | 0 <= i && i + 2 < |s|
      ensures !RunAt(s, i)
    {
      assert s[i + 2] != s[i];
    }
  }

  /** The lowered "Aa1!Aa1!Aa1!" is three copies of "aa1!". */
  lemma MixedTwelveLowered()
    ensures ToLower(MixedTwelve()) == Units("aa1!") + Units("aa1!") + Units("aa1!")
  {
    var q := Units("Aa1!");
    assert MixedTwelve() == q + q + q;
    ToLowerConcat(q, q);
    ToLowerConcat(q + q, q);
    assert ToLower(q) == Units("aa1!");
  }

  /** No weak pattern occurs in three copies of "aa1!": "abc" needs a 'b' and
      "123" a '2', and the other patterns start with a unit the text lacks. */
  lemma NoPatternInLoweredMix()
    ensures var t := Units("aa1!") + Units("aa1!") + Units("aa1!");
      forall k :: 0 <= k < |WeakPatterns| ==> !Occurs(WeakPatterns[k], t)
  {
    var t := Units("aa1!") + Units("aa1!") + Units("aa1!");
    assert forall i :: 0 <= i < |t| ==> t[i] == 'a' as int || t[i] == '1' as int || t[i] == '!' as int;
    AbsentUnitNeverOccurs(WeakPatterns[0], t, 1);
    AbsentUnitNeverOccurs(WeakPatterns[1], t, 1);
    AbsentUnitNeverOccurs(WeakPatterns[2], t, 0);
    AbsentUnitNeverOccurs(WeakPatterns[3], t, 0);
    AbsentUnitNeverOccurs(WeakPatterns[4], t, 0);
  }

  lemma MixedTwelveHasNoSequence()
    ensures !HasSequence(MixedTwelve())
  {
    MixedTwelveLowered();
    NoPatternInLoweredMix();
  }

  /** The flags of "Aa1!Aa1!Aa1!": all four classes, no repeat, no weak
      sequence, not blacklisted. */
  lemma MixedTwelveSignals()
    ensures CheckStrength(MixedTwelve()).signals
      == Signals(12, true, true, true, true, false, false, false)
  {
    var s := MixedTwelve();
    assert IsUpper(s[0]) && IsLower(s[1]) && IsDigit(s[2]) && IsSymbol(s[3]);
    MixedTwelveHasNoRepeat();
    MixedTwelveHasNoSequence();
  }

  /** A twelve-unit password with all four classes and no weak pattern earns the
      success message and the top bucket. */
  lemma MixedTwelveIsExcellent()
    ensures var r := CheckStrength(MixedTwelve());
      && r.signals == Signals(12, true, true, true, true, false, false, false)
      && r.charset == 82
      && r.suggestions == [MsgStrong]
      && Present(r) == UiState(3, "strong", 100, "Strong", [MsgStrong])
  {
    var g := Signals(12, true, true, true, true, false, false, false);
    MixedTwelveSignals();
    RecordFromSignals(MixedTwelve(), g);
    AllPassSuggestions();
    PageInBucket(CheckStrength(MixedTwelve()), 3);
  }

  /** The suggestions and score of a twelve-unit record with every class and
      no flag. */
  lemma AllPassSuggestions()
    ensures var g := Signals(12, true, true, true, true, false, false, false);
      && Suggestions(g) == [MsgStrong]
      && Score(g) == 5
  {
    StrongExactlyWhenAllRulesPass(Signals(12, true, true, true, true, false, false, false));
  }

  /** Four equal letters are a repeat. */
  lemma FourEqualLettersRepeat()
    ensures CheckStrength(Units("aaaa")).signals.repeats
    ensures MsgRepeats in CheckStrength(Units("aaaa")).suggestions
  {
    var s := Units("aaaa");
    assert RunAt(s, 0);
    assert RuleFires(CheckStrength(s).signals, 5);
  }

  /** `.` does not match a line feed, so three of them are no repeat. */
  lemma LineFeedsDoNotRepeat()
    ensures !CheckStrength([0x0A, 0x0A, 0x0A]).signals.repeats
  {
  }

  /** Six code units alternating between the two surrogates of U+1F600. */
  function ThreeEmoji(): (s: JsString)
    ensures |s| == 6
    ensures forall i :: 0 <= i < |s| ==> IsSymbol(s[i]) && s[i] >= 0xD800
  {
    [0xD83D, 0xDE00, 0xD83D, 0xDE00, 0xD83D, 0xDE00]
  }

  /** Neighbouring units of `ThreeEmoji` differ, so no run of three. */
  lemma ThreeEmojiHaveNoRepeat()
    ensures !HasRepeat(ThreeEmoji())
  {
    var s := ThreeEmoji();
    forall i | 0 <= i && i + 2 < |s|
      ensures !RunAt(s, i)
    {
      assert s[i + 1] != s[i];
    }
  }

  /** Surrogates are not ASCII, so three copies of U+1F600 are neither
      sequential nor blacklisted. */
  lemma ThreeEmojiHaveNoFoldedFlag()
    ensures !HasSequence(ThreeEmoji())
    ensures !IsBlacklisted(ThreeEmoji())
  {
    NoAsciiNoFoldedFlag(ThreeEmoji());
  }

  /** The flags of three copies of U+1F600: a symbol, length 6, nothing else. */
  lemma ThreeEmojiSignals()
    ensures CheckStrength(ThreeEmoji()).signals
      == Signals(6, false, false, false, true, false, false, false)
  {
    var s := ThreeEmoji();
    ThreeEmojiClasses();
    ThreeEmojiHaveNoRepeat();
    ThreeEmojiHaveNoFoldedFlag();
    assert CheckStrength(s).signals == Signals(|s|,
      ContainsClass(s, Upper), ContainsClass(s, Lower), ContainsClass(s, Digit), ContainsClass(s, Symbol),
      HasRepeat(s), HasSequence(s), IsBlacklisted(s));
  }

  /** Surrogates are symbols and nothing else. */
  lemma ThreeEmojiClasses()
    ensures !ContainsClass(ThreeEmoji(), Upper)
    ensures !ContainsClass(ThreeEmoji(), Lower)
    ensures !ContainsClass(ThreeEmoji(), Digit)
    ensures ContainsClass(ThreeEmoji(), Symbol)
  {
    var s := ThreeEmoji();
    assert InClass(s[0], Symbol);
  }

  /** The suggestions and score of a six-unit, symbol-only record. */
  lemma SymbolOnlySuggestions()
    ensures var g := Signals(6, false, false, false, true, false, false, false);
      && Suggestions(g) == [MsgLonger, MsgUpper, MsgLower, MsgDigit]
      && Score(g) == 2
  {
    var g := Signals(6, false, false, false, true, false, false, false);
    assert RuleList(g) == [MsgLonger, MsgUpper, MsgLower, MsgDigit];
  }

  /** Three copies of U+1F600 are six code units that alternate between two
      surrogates: a symbol, six units long, with no run of three. They get the
      charset 20, the length and three class suggestions, score 2 and the
      second bucket. */
  lemma AstralCharactersDoNotRepeat()
    ensures var r := CheckStrength(ThreeEmoji());
      && r.signals == Signals(6, false, false, false, true, false, false, false)
      && r.charset == 20
      && r.suggestions == [MsgLonger, MsgUpper, MsgLower, MsgDigit]
      && Score(r.signals) == 2
      && Present(r) == UiState(1, "weak", 45, "Fair", r.suggestions)
  {
    var g := Signals(6, false, false, false, true, false, false, false);
    ThreeEmojiSignals();
    RecordFromSignals(ThreeEmoji(), g);
    SymbolOnlySuggestions();
    PageInBucket(CheckStrength(ThreeEmoji()), 1);
  }
}
